=== FILE: README.md ===
# DemoMusicPlayer playback core, modelled in Dafny

The application is an Android music player: a background media-browser
service hosts an ExoPlayer engine behind a media session, a UI activity
connects through a media controller, and a repository builds track
descriptors from three bundled raw resources. This project models the pure
decision logic underneath:

- the service's bridge from engine events (raw state, `isPlaying`, errors)
  to the session's published playback state, and the foreground-notification
  refresh that the service's own controller callback performs for each
  published state (`PlaybackService`);
- the notification's buttons, the browse root and children, and the
  per-entry metadata (`PlaybackService`, `Tracks`);
- the session callback that turns transport requests into engine commands
  (`SessionCallback`);
- the default media controller: play mode to engine flags, the play list's
  append and remove-all, and its transport calls (`MediaController`);
- the UI's action-code dispatcher, its state mirror, and the description
  it hands to its media-info update (`MainActivity`), and the media-button key-code dispatcher
  (`ButtonReceiver`), both over a first-match `when` (`WhenDispatch`);
- the shared media record's initial values and engine set-up (`Media`);
- the repository's descriptor construction with default filling
  (`MusicRepository`).

The engine is abstract (`ExoPlayer`): its repeat, shuffle and
playWhenReady flags, its item queue, and a log of the commands issued to it.
As the engine documents, `play()` sets playWhenReady and `pause()` clears
it. Kotlin's `Int`/`Long` ranges, wrap-around, `Long.shl` (low six
bits of the count) and `Long.toInt()` are written out in `KotlinInts`.

Modelling decisions:

- A track is a 7-field record: URI, resource id, title, artist, album,
  optional image, and duration. This is how the repository constructs tracks
  and how the service reads them. The 4-field declaration in MediaItemData.kt
  contradicts both and is not modelled.
- The service's play list is the keyed map the service iterates. It is held
  as a sequence of (key, track) entries in iteration order, with distinct
  keys. The controller's play list is a plain list of tracks.
- Service creation assigns the repository's list to the keyed-map field.
  That is a type mismatch in the code, so `OnCreate` takes the keyed play
  list as a parameter.
- `ACTION_FAVORITE = 1 shl 111` is evaluated as a `Long` shift. Its value
  is 2^47, and its `toInt()` is 0 (`PlaybackService.FavoriteActionValue`).
  So the receiver's favorite arm matches key code 0.
- The notification builder reads the session metadata without a null check.
  It throws when the session has no metadata yet. That path is the `Err`
  result of `CreateNotification`, and of every operation that publishes a
  state.
- The engine's position and speed are opaque inputs carried by each event.
- The service's controller callback is treated as running right after the
  state is published. It records the state before building the
  notification, so the notification's play/pause button always matches the
  state just published.

Behaviours of the code that a reader might not expect, all modelled as
written:

- Re-browsing is not idempotent. Every browse appends the play list again to
  the browse items and to the engine queue.
- The PLAY_PAUSE media key always pauses. It is not a toggle. Only the UI's
  action dispatcher toggles, and it reads the session's published state.
- The session metadata is the last browsed entry's, not the playing
  track's. It is not refreshed when the track changes.
- With no metadata yet, publishing PLAYING, PAUSED or NONE throws while the
  notification is built. An empty play list therefore does not degrade
  quietly.
- An engine event can move the state out of ERROR. ERROR is not terminal.

## Model

| member | source | states |
|---|---|---|
| PlaybackService.FavoriteActionValue | app/src/main/java/dev/shadowmeld/demomusicplayer/media/MediaPlaybackService.kt:45 | `1 shl 111` as a Long is 2^47 (0x8000_0000_0000) because only the low six bits of the count are used, and its `toInt()` is 0 |
| KotlinInts.ShlLong | app/src/main/java/dev/shadowmeld/demomusicplayer/media/MediaPlaybackService.kt:45 | a Long left shift is congruent to x·2^(count mod 64) modulo 2^64, and equals it when that product stays in Long range |
| KotlinInts.LongToInt | app/src/main/java/dev/shadowmeld/demomusicplayer/media/MediaButtonReceiver.kt:29 | narrowing keeps the value modulo 2^32 and is the identity on values in Int range |
| PlaybackService.OnCreate | app/src/main/java/dev/shadowmeld/demomusicplayer/media/MediaPlaybackService.kt:52-96 | after creation the play list is the loaded one, the recorded state is null, the active session is in NONE advertising the nine creation actions with no metadata, the engine repeats ALL with shuffle and playWhenReady off and an empty queue, and no browse item or notification exists |
| PlaybackService.MapPlayerState | app/src/main/java/dev/shadowmeld/demomusicplayer/media/MediaPlaybackService.kt:274-285 | the mapping is total: PLAYING iff READY with playWhenReady, PAUSED iff READY without it, STOPPED iff ENDED, BUFFERING iff BUFFERING, NONE for IDLE and every unknown code, never ERROR |
| PlaybackService.EventState | app/src/main/java/dev/shadowmeld/demomusicplayer/media/MediaPlaybackService.kt:259-304 | `isPlaying` true publishes PLAYING and false PAUSED; a player error, and only a player error, publishes ERROR; a raw state change publishes its mapped state |
| PlaybackService.NotificationTrigger | app/src/main/java/dev/shadowmeld/demomusicplayer/media/MediaPlaybackService.kt:105-109 | the notification is rebuilt exactly for a non-null state other than BUFFERING, STOPPED and ERROR |
| PlaybackService.PlayPauseButton | app/src/main/java/dev/shadowmeld/demomusicplayer/media/MediaPlaybackService.kt:192-211 | the second button is the pause icon, Pause and ACTION_PLAY_PAUSE iff the recorded state is PLAYING, otherwise the play-arrow icon, Play and ACTION_PLAY, including for a null state |
| PlaybackService.CreateNotification | app/src/main/java/dev/shadowmeld/demomusicplayer/media/MediaPlaybackService.kt:164-242 | the notification fails exactly when the session has no metadata; otherwise it shows that metadata with buttons previous, play/pause, next, favorite in that order and compact view 0, 1, 2 |
| PlaybackService.OnControllerStateChanged | app/src/main/java/dev/shadowmeld/demomusicplayer/media/MediaPlaybackService.kt:98-111 | the delivered state is recorded (null when none is delivered); a triggering state appends exactly one notification, the one the builder makes for the recorded state: previous, the play/pause button for that state, next and favorite, compact view 0, 1, 2; any other state posts nothing; nothing else changes |
| PlaybackService.SetPlaybackState | app/src/main/java/dev/shadowmeld/demomusicplayer/media/MediaPlaybackService.kt:309-315 | a published state advertises exactly SEEK_TO and carries the given position and speed; the recorded state becomes it; the engine, play list, browse items and metadata are unchanged; one notification is added iff the state triggers, with the four buttons and the play/pause button for the published state |
| PlaybackService.OnPlayerEvent | app/src/main/java/dev/shadowmeld/demomusicplayer/media/MediaPlaybackService.kt:256-305 | each engine event publishes its mapped state with only SEEK_TO, leaves the engine and metadata alone, and fails only when it triggers a notification without metadata; a triggering state appends exactly one notification with the four buttons and the play/pause button for that state, and any other state posts nothing |
| PlaybackService.PublishedStateNamesButton | app/src/main/java/dev/shadowmeld/demomusicplayer/media/MediaPlaybackService.kt:98-111 | publishing PLAYING on a session with metadata posts a notification whose play/pause button reads Pause, and publishing PAUSED or NONE posts one that reads Play |
| PlaybackService.LatestEventDecides | app/src/main/java/dev/shadowmeld/demomusicplayer/media/MediaPlaybackService.kt:256-315 | after any non-empty run of engine events the published state is the last event's mapping, the actions are exactly SEEK_TO, and the engine, play list and browse items are untouched |
| PlaybackService.NotificationPerTrigger | app/src/main/java/dev/shadowmeld/demomusicplayer/media/MediaPlaybackService.kt:98-111 | over any run of events exactly one notification is posted per PLAYING/PAUSED/NONE state, earlier ones are kept, and with metadata present the run never fails |
| PlaybackService.NotificationsShowSessionMetadata | app/src/main/java/dev/shadowmeld/demomusicplayer/media/MediaPlaybackService.kt:98-111 | over any run of engine events on a session with metadata, the run completes, the metadata is kept, earlier notifications are kept, and every notification posted shows that metadata |
| PlaybackService.OnGetRoot | app/src/main/java/dev/shadowmeld/demomusicplayer/media/MediaPlaybackService.kt:118-124 | every client gets the root named after the application, whatever its package, uid or hints |
| PlaybackService.AddEntries | app/src/main/java/dev/shadowmeld/demomusicplayer/media/MediaPlaybackService.kt:139-150 | each entry, in iteration order, appends one browse item built from its metadata and one engine item for its resource; the session keeps the last entry's metadata; nothing else changes |
| PlaybackService.OnLoadChildren | app/src/main/java/dev/shadowmeld/demomusicplayer/media/MediaPlaybackService.kt:128-154 | the empty-root sentinel gets null and changes nothing; any other parent appends the play list's items to the never-cleared browse items and to the engine queue and sends all items so far; a null play list sends the existing items unchanged; the session is left holding the last entry's metadata (unchanged for an empty or null play list); the engine's flags and log, the recorded state and track, the session's playback state and activity, the play list and the notifications never change |
| PlaybackService.RepeatedBrowseDuplicates | app/src/main/java/dev/shadowmeld/demomusicplayer/media/MediaPlaybackService.kt:126-153 | browsing twice adds the play list's browse items and engine items twice over |
| Tracks.BuildMediaMetadata | app/src/main/java/dev/shadowmeld/demomusicplayer/media/MediaPlaybackService.kt:355-366 | the metadata holds exactly media id = the entry key, album, artist, title and the duration widened to a Long of the same value |
| Tracks.BuildMediaMetadataRoundTrip | app/src/main/java/dev/shadowmeld/demomusicplayer/media/MediaPlaybackService.kt:355-366 | the key and the four copied fields read back unchanged from the built metadata |
| Tracks.BuildMediaMetadataInjective | app/src/main/java/dev/shadowmeld/demomusicplayer/media/MediaPlaybackService.kt:355-366 | two entries give equal metadata iff they agree on key, album, artist, title and duration |
| SessionCallback.OnRequest | app/src/main/java/dev/shadowmeld/demomusicplayer/media/MediaPlaybackService.kt:317-350 | play issues `play` then `prepare` and leaves playWhenReady set; pause issues one `pause`; skip next/previous and seek issue the one matching engine command; the queue and the repeat and shuffle flags never change |
| SessionCallback.OnRequests | app/src/main/java/dev/shadowmeld/demomusicplayer/media/MediaPlaybackService.kt:317-350 | a run of requests appends to the engine log exactly each request's commands in request order, never touches the queue or the repeat and shuffle flags, and a single request acts as that request alone |
| PlaybackService.OnSessionRequest | app/src/main/java/dev/shadowmeld/demomusicplayer/media/MediaPlaybackService.kt:317-350 | a session request changes only the service's engine and keeps its queue and modes: play logs `play` then `prepare` and sets playWhenReady, pause logs `pause` and clears it, skip next, skip previous and seek log their one matching command and keep it |
| Tracks.PlayListMetadataDistinct | app/src/main/java/dev/shadowmeld/demomusicplayer/media/MediaPlaybackService.kt:355-366 | two different positions of a play list give different metadata, since their keys differ |
| Scenarios.FirstBrowse | app/src/main/java/dev/shadowmeld/demomusicplayer/media/MediaPlaybackService.kt:128-154 | the first browse of a fresh service with a non-empty play list sends exactly the play list's items and leaves the session holding the last entry's metadata, with no notification yet |
| Scenarios.FirstBrowseSplitsActivityFromSession | app/src/main/java/dev/shadowmeld/demomusicplayer/ui/MainActivity.kt:109-118 | after the first browse of a fresh service with two or more entries, the activity's children callback hands on the first entry's description, while the session and every notification a later run of engine events posts carry the last entry's, and the two differ |
| Scenarios.PlayAfterBrowse | app/src/main/java/dev/shadowmeld/demomusicplayer/media/MediaPlaybackService.kt:128-315 | with two tracks, a browse queues both in order; PLAY then a READY event publishes PLAYING and posts one notification with a Pause button that shows the last browsed entry's metadata |
| Scenarios.EmptyPlayList | app/src/main/java/dev/shadowmeld/demomusicplayer/media/MediaPlaybackService.kt:164-170 | an empty play list browses to an empty list and leaves no metadata; a later BUFFERING event is published, but an IDLE event makes the notification builder throw |
| Media.Initial | app/src/main/java/dev/shadowmeld/demomusicplayer/media/Media.kt:30-40 | the shared record's state, current track and play list all start null |
| Media.InitExoPlayer | app/src/main/java/dev/shadowmeld/demomusicplayer/media/Media.kt:44-48 | the service's engine repeats ALL and keeps every other default, so playWhenReady stays off |
| MediaController.Initial | app/src/main/java/dev/shadowmeld/demomusicplayer/media/MediaController.kt:112-122 | the controller starts with a null play list and current song, state NONE and mode REPEAT without the setter having touched an engine |
| MediaController.InitExoPlayer | app/src/main/java/dev/shadowmeld/demomusicplayer/media/MediaController.kt:104-110 | the controller's engine repeats ALL with playWhenReady on, and nothing else of the controller changes |
| MediaController.InitExoPlayersDiffer | app/src/main/java/dev/shadowmeld/demomusicplayer/media/MediaController.kt:104-110 | the controller's engine set-up equals the shared record's except that playWhenReady is set |
| MediaController.SetPlayMode | app/src/main/java/dev/shadowmeld/demomusicplayer/media/MediaController.kt:122-140 | the mode reads back as set; REPEAT gives shuffle off and repeat ALL, SHUFFLE gives shuffle on and keeps the repeat mode, SINGLE gives shuffle off and repeat ONE; nothing else changes |
| MediaController.SetPlayModeRoundTrip | app/src/main/java/dev/shadowmeld/demomusicplayer/media/MediaController.kt:122-140 | reading the mode back from the engine's flags gives the mode just set, for every starting engine |
| MediaController.SetPlayModeIdempotent | app/src/main/java/dev/shadowmeld/demomusicplayer/media/MediaController.kt:122-140 | setting the same mode twice equals setting it once |
| MediaController.AddSongs | app/src/main/java/dev/shadowmeld/demomusicplayer/media/MediaController.kt:142-144 | the items are appended in order after the existing songs; a null play list stays null; nothing else changes |
| MediaController.RemoveSongs | app/src/main/java/dev/shadowmeld/demomusicplayer/media/MediaController.kt:146-148 | the play list becomes its songs not among the items; a null play list stays null; nothing else changes |
| MediaController.RemoveAllContents | app/src/main/java/dev/shadowmeld/demomusicplayer/media/MediaController.kt:146-148 | after removal a song occurs iff it occurred before and is not among the items, and each kept song keeps its multiplicity |
| MediaController.RemoveAllDistributes | app/src/main/java/dev/shadowmeld/demomusicplayer/media/MediaController.kt:146-148 | removal distributes over concatenation, so the relative order of what remains is kept |
| MediaController.AddThenRemove | app/src/main/java/dev/shadowmeld/demomusicplayer/media/MediaController.kt:142-148 | appending items and then removing them leaves exactly the earlier songs not among them |
| MediaController.OnPlay | app/src/main/java/dev/shadowmeld/demomusicplayer/media/MediaController.kt:155-159 | the engine receives `play` then `prepare` and ends with playWhenReady set; only the engine's log and playWhenReady change, and nothing else of the controller |
| MediaController.OnPause | app/src/main/java/dev/shadowmeld/demomusicplayer/media/MediaController.kt:150-153 | the engine receives one `pause` and ends with playWhenReady clear; only the engine's log and playWhenReady change, and nothing else of the controller |
| MediaController.OnPrevious | app/src/main/java/dev/shadowmeld/demomusicplayer/media/MediaController.kt:161-164 | the engine receives one `seekToPreviousMediaItem`; only the engine's log changes, and nothing else of the controller |
| MediaController.OnNext | app/src/main/java/dev/shadowmeld/demomusicplayer/media/MediaController.kt:166-169 | the engine receives one `seekToNextMediaItem`; only the engine's log changes, and nothing else of the controller |
| MediaController.OnSeekTo | app/src/main/java/dev/shadowmeld/demomusicplayer/media/MediaController.kt:171-174 | the engine receives one `seekTo` with the given position; only the engine's log changes, and nothing else of the controller |
| MediaController.TransportMatchesSessionCallback | app/src/main/java/dev/shadowmeld/demomusicplayer/media/MediaController.kt:150-174 | each controller transport call leaves its engine exactly where the service's session callback leaves the same engine for the matching request (compare MediaPlaybackService.kt:317-350) |
| WhenDispatch.FirstMatch | app/src/main/java/dev/shadowmeld/demomusicplayer/media/MediaButtonReceiver.kt:12-35 | a `when` takes the first arm listing the subject, and no arm exactly when no arm lists it |
| MainActivity.OnPlayCurrentMusic | app/src/main/java/dev/shadowmeld/demomusicplayer/ui/MainActivity.kt:134-155 | at most one request: PLAY or PAUSE issues one pause when the session's state is PLAYING and one play otherwise; each skip code issues only its skip; every other code issues nothing |
| MainActivity.ToggleFollowsSessionNotMirror | app/src/main/java/dev/shadowmeld/demomusicplayer/ui/MainActivity.kt:136-145 | once the session has published PLAYING, PLAY pauses the engine even when the mirrored state was reset to NONE |
| MainActivity.UiPlayStartsEngine | app/src/main/java/dev/shadowmeld/demomusicplayer/ui/MainActivity.kt:136-145 | PLAY on a session that is not PLAYING reaches the engine as `play` then `prepare` with playWhenReady set |
| MainActivity.OnPlaybackStateChanged | app/src/main/java/dev/shadowmeld/demomusicplayer/ui/MainActivity.kt:42-45 | the controller mirrors the delivered state, and a null delivery is mirrored as NONE |
| MainActivity.OnChildrenLoaded | app/src/main/java/dev/shadowmeld/demomusicplayer/ui/MainActivity.kt:109-118 | the first child's description is handed to `updateShowMediaInfo` when there is one, and an empty list hands nothing on |
| MainActivity.OnMetadataChanged | app/src/main/java/dev/shadowmeld/demomusicplayer/ui/MainActivity.kt:36-40 | non-null metadata's description is handed to `updateShowMediaInfo`, and a null change is ignored |
| ButtonReceiver.FavoriteKeyCode | app/src/main/java/dev/shadowmeld/demomusicplayer/media/MediaButtonReceiver.kt:29 | the favorite arm compares against key code 0 |
| ButtonReceiver.OnReceive | app/src/main/java/dev/shadowmeld/demomusicplayer/media/MediaButtonReceiver.kt:12-35 | at most one request per key: PLAY_PAUSE pauses (never a toggle), PLAY plays, NEXT and PREVIOUS skip, and every other key, PAUSE included, issues nothing |
| ButtonReceiver.FavoriteArmMatchesZero | app/src/main/java/dev/shadowmeld/demomusicplayer/media/MediaButtonReceiver.kt:29-34 | key code 0 is taken by the favorite arm and issues nothing, while PAUSE matches no arm |
| ButtonReceiver.PlayPauseKeyAlwaysPauses | app/src/main/java/dev/shadowmeld/demomusicplayer/media/MediaButtonReceiver.kt:13-16 | on the service's engine a PLAY_PAUSE key issues exactly one `pause`, whatever the published state |
| MusicRepository.NewRepository | app/src/main/java/dev/shadowmeld/demomusicplayer/data/MusicRepository.kt:19-25 | a new repository holds no result yet |
| MusicRepository.MusicInfo | app/src/main/java/dev/shadowmeld/demomusicplayer/data/MusicRepository.kt:39-51 | each present field is copied, a missing title, artist or album becomes its fixed Chinese placeholder, a missing duration becomes 0, and no embedded cover means no image |
| MusicRepository.MusicInfoRecovers | app/src/main/java/dev/shadowmeld/demomusicplayer/data/MusicRepository.kt:43-51 | reading a descriptor back gives the extracted fields, except that a value equal to its placeholder is read as missing |
| MusicRepository.GetMusicInfo | app/src/main/java/dev/shadowmeld/demomusicplayer/data/MusicRepository.kt:27-34 | a null context yields an empty list; otherwise exactly three descriptors for a1, a2, a3 in that order, each under its package resource URI |
| MusicRepository.GetMusicInfoReplaces | app/src/main/java/dev/shadowmeld/demomusicplayer/data/MusicRepository.kt:27-37 | the observed result after a load depends only on the context, so each load replaces the previous value rather than appending |

## Left out

- Android and ExoPlayer plumbing is not modelled: session and browser connection lifecycle, notification-channel creation and the SDK-version check, pending intents, `startForeground` beyond recording the posted notification, the notification's small icon, colour, visibility and content intent, and logging.
- How a media description's text is derived from metadata is the framework's work. A browse item and a notification carry the metadata itself.
- `MediaMetadataRetriever` and bitmap decoding are foreign I/O. The extracted fields and the decoded cover are inputs.
- A duration text that is not a number makes `toInt()` throw. The model assumes each duration is absent or numeric.
- The engine's position and speed are opaque values. Its asynchronous event delivery, the coroutine job and the commented-out position updater are left out. Events are applied one at a time, in order.
- The same key event can reach the session twice: once through `super.onReceive` and once through `handleIntent` in `onStartCommand`. This is framework delivery and is left out.
- ButtonReceiver.OnReceive: the four transport arms read the shared session, a `lateinit` property that only service creation assigns, so a PLAY_PAUSE, PLAY, NEXT or PREVIOUS key arriving before any service has been created in the process throws instead of dispatching. The favorite and `else` arms only log and do not throw. The model assumes a service has been created; `PlayPauseKeyAlwaysPauses` is stated on a created service.
- A key-event intent that is null or carries no key event makes the receiver's cast throw. The model's input is the key code.
- `onFavorite` only logs, so it is not modelled.
- `updateShowMediaInfo` only logs in this code. The model records which description the activity hands to it, not anything on screen.
- The shared media record is process-wide and is not reset when the service is destroyed. A second service creation in the same process would start from the previous one's recorded state. `OnCreate` starts from null values, so it models the first creation only.
- `updateMediaInfo` is left out. The controller's `session` is never assigned in this code, so the call can only throw.
- MediaController: touching the engine before `initExoPlayer` throws. The setter and the transport functions therefore require an initialised engine.
- The code does not rebuild metadata on track change, does not make re-browsing idempotent, and does not re-subscribe after a connection is suspended. These behaviours are not modelled.
- Player.kt, MainViewModel.kt, LocalMusicInfo.kt, Logger.kt and MediaItemData.kt are not part of this model. They are UI, glue, unused, logging, and a declaration that contradicts its use.

=== FILE: android_codes.dfy ===
/**
 * The framework constants the core compares against: the engine's raw
 * playback states, the session's playback states, the session's action bits,
 * the media key codes and the engine's repeat modes.
 */
module AndroidCodes {

  // Raw engine states (Player.STATE_*).
  const PLAYER_STATE_IDLE: int := 1
  const PLAYER_STATE_BUFFERING: int := 2
  const PLAYER_STATE_READY: int := 3
  const PLAYER_STATE_ENDED: int := 4

  /**
   * The session playback states the core publishes
   * (PlaybackStateCompat.STATE_NONE = 0, STOPPED = 1, PAUSED = 2, PLAYING = 3,
   * BUFFERING = 6, ERROR = 7).
   */
  datatype SessionState =
    | StateNone
    | StateStopped
    | StatePaused
    | StatePlaying
    | StateBuffering
    | StateError

  /** The session actions the core names (PlaybackStateCompat.ACTION_*). */
  datatype Action =
    | ActionStop
    | ActionPause
    | ActionPlay
    | ActionSkipToPrevious
    | ActionSkipToNext
    | ActionSeekTo
    | ActionPlayPause
    | ActionPlayFromMediaId
    | ActionPlayFromSearch

  /** The action's bit in a playback state's action mask. */
  function ActionCode(a: Action): int {
    match a
    case ActionStop => 1
    case ActionPause => 2
    case ActionPlay => 4
    case ActionSkipToPrevious => 16
    case ActionSkipToNext => 32
    case ActionSeekTo => 256
    case ActionPlayPause => 512
    case ActionPlayFromMediaId => 1024
    case ActionPlayFromSearch => 2048
  }

  // Media key codes (KeyEvent.KEYCODE_*).
  const KEYCODE_MEDIA_PLAY_PAUSE: int := 85
  const KEYCODE_MEDIA_NEXT: int := 87
  const KEYCODE_MEDIA_PREVIOUS: int := 88
  const KEYCODE_MEDIA_PLAY: int := 126
  const KEYCODE_MEDIA_PAUSE: int := 127

  /** The engine's repeat modes (REPEAT_MODE_OFF = 0, ONE = 1, ALL = 2). */
  datatype RepeatMode = RepeatOff | RepeatOne | RepeatAll
}

=== FILE: button_receiver.dfy ===
/**
 * The media-button receiver: a key code is dispatched through a `when`
 * whose first matching arm wins, issuing at most one transport request.
 */
module ButtonReceiver {
  import opened Wrappers
  import opened KotlinInts
  import opened AndroidCodes
  import opened WhenDispatch
  import opened SessionCallback
  import PlaybackService
  import ExoPlayer

  /** The key code the favorite arm compares against: the favorite action narrowed to an `Int`. */
  function FavoriteKeyCode(): (r: Int32)
    ensures r == 0
  {
    PlaybackService.FavoriteActionValue();
    LongToInt(PlaybackService.ACTION_FAVORITE)
  }

  /**
   * The receiver's arms in source order: PLAY_PAUSE pauses (it is not a
   * toggle), PLAY plays, NEXT and PREVIOUS skip, and the favorite arm only
   * logs. The `else` arm only logs too.
   */
  function ReceiverArms(): seq<Arm<seq<Request>>> {
    [ Arm([KEYCODE_MEDIA_PLAY_PAUSE], [RequestPause]),
      Arm([KEYCODE_MEDIA_PLAY], [RequestPlay]),
      Arm([KEYCODE_MEDIA_NEXT], [RequestSkipToNext]),
      Arm([KEYCODE_MEDIA_PREVIOUS], [RequestSkipToPrevious]),
      Arm([FavoriteKeyCode() as int], []) ]
  }

  /** The transport requests one key event issues. */
  function OnReceive(keyCode: int): (r: seq<Request>)
    ensures |r| <= 1
    ensures r == [RequestPause] <==> keyCode == KEYCODE_MEDIA_PLAY_PAUSE
    ensures r == [RequestPlay] <==> keyCode == KEYCODE_MEDIA_PLAY
    ensures r == [RequestSkipToNext] <==> keyCode == KEYCODE_MEDIA_NEXT
    ensures r == [RequestSkipToPrevious] <==> keyCode == KEYCODE_MEDIA_PREVIOUS
    ensures r == [] <==> keyCode !in {KEYCODE_MEDIA_PLAY_PAUSE, KEYCODE_MEDIA_PLAY, KEYCODE_MEDIA_NEXT, KEYCODE_MEDIA_PREVIOUS}
  {
    var arms := ReceiverArms();
    assert arms[4].values == [0];
    Select(arms, keyCode, [])
  }

  /** Key code 0 is taken by the favorite arm, which issues nothing; PAUSE falls to the `else` arm. */
  lemma FavoriteArmMatchesZero()
    ensures FirstMatch(ReceiverArms(), 0) == Some(4)
    ensures OnReceive(0) == []
    ensures FirstMatch(ReceiverArms(), KEYCODE_MEDIA_PAUSE).None? && OnReceive(KEYCODE_MEDIA_PAUSE) == []
  {
    var arms := ReceiverArms();
    assert arms[4].values == [0];
    assert forall j :: 0 <= j < 4 ==> 0 !in arms[j].values;
  }

  /**
   * On the service's engine, a PLAY_PAUSE key issues exactly one `pause`,
   * whatever the published state.
   */
  lemma PlayPauseKeyAlwaysPauses(svc: PlaybackService.Service)
    ensures OnRequests(svc.player, OnReceive(KEYCODE_MEDIA_PLAY_PAUSE)).log == svc.player.log + [ExoPlayer.Pause]
  {
  }
}

=== FILE: exo_player.dfy ===
/**
 * The playback engine, abstracted to the flags the core sets, its item
 * queue and a log of the commands issued to it.
 */
module ExoPlayer {
  import opened AndroidCodes

  /** A queued item: the raw-resource URI built from a resource id. */
  datatype MediaItem = RawResourceItem(resource: int)

  /** The engine commands the core issues. */
  datatype Command =
    | Play
    | Pause
    | Prepare
    | SeekTo(position: int)
    | SeekToNextMediaItem
    | SeekToPreviousMediaItem

  datatype Player = Player(
    repeatMode: RepeatMode,
    shuffleModeEnabled: bool,
    playWhenReady: bool,
    queue: seq<MediaItem>,
    log: seq<Command>)

  /** A freshly built engine: no repeat, no shuffle, not playing when ready, nothing queued. */
  function Build(): (r: Player)
    ensures r.repeatMode == RepeatOff && !r.shuffleModeEnabled && !r.playWhenReady
    ensures r.queue == [] && r.log == []
  {
    Player(RepeatOff, false, false, [], [])
  }

  /**
   * Issues one command. As the engine documents, `play()` and `pause()` set
   * playWhenReady to true and false; the other commands leave the flags alone.
   */
  function Issue(p: Player, c: Command): (r: Player)
    ensures r.log == p.log + [c]
    ensures r.queue == p.queue && r.repeatMode == p.repeatMode && r.shuffleModeEnabled == p.shuffleModeEnabled
    ensures r.playWhenReady == (if c.Play? then true else if c.Pause? then false else p.playWhenReady)
  {
    match c
    case Play => p.(playWhenReady := true, log := p.log + [c])
    case Pause => p.(playWhenReady := false, log := p.log + [c])
    case _ => p.(log := p.log + [c])
  }

  /** `addMediaItem`: appends to the queue. */
  function AddMediaItem(p: Player, item: MediaItem): (r: Player)
    ensures r.queue == p.queue + [item]
    ensures r == p.(queue := r.queue)
  {
    p.(queue := p.queue + [item])
  }
}

=== FILE: kotlin_ints.dfy ===
/**
 * Kotlin's fixed-width integers on top of Dafny's unbounded ones: `Int` and
 * `Long` as ranges, two's-complement wrap-around, `Long.shl` (which uses only
 * the low six bits of the shift count) and the narrowing `Long.toInt()`.
 */
module KotlinInts {

  const TWO_31: int := 0x8000_0000
  const TWO_32: int := 0x1_0000_0000
  const TWO_63: int := 0x8000_0000_0000_0000
  const TWO_64: int := 0x1_0000_0000_0000_0000

  /** Kotlin `Int`. */
  type Int32 = x: int | -TWO_31 <= x < TWO_31

  /** Kotlin `Long`. */
  type Int64 = x: int | -TWO_63 <= x < TWO_63

  function Pow2(n: nat): nat
  {
    if n == 0 then 1 else 2 * Pow2(n - 1)
  }

  lemma {:induction false} Pow2Add(a: nat, b: nat)
    ensures Pow2(a + b) == Pow2(a) * Pow2(b)
    decreases a
  {
    if a > 0 {
      Pow2Add(a - 1, b);
    }
  }

  /** The `Long` congruent to `x` modulo 2^64. */
  function WrapLong(x: int): (r: Int64)
    ensures (r - x) % TWO_64 == 0
    ensures -TWO_63 <= x < TWO_63 ==> r == x
  {
    (x + TWO_63) % TWO_64 - TWO_63
  }

  /** The `Int` congruent to `x` modulo 2^32. */
  function WrapInt(x: int): (r: Int32)
    ensures (r - x) % TWO_32 == 0
    ensures -TWO_31 <= x < TWO_31 ==> r == x
  {
    (x + TWO_31) % TWO_32 - TWO_31
  }

  /**
   * `x shl count` on `Long`: the count is reduced to its low six bits
   * (`count and 63`, which for Dafny's Euclidean `%` is `count % 64`), and
   * the product wraps around.
   */
  function ShlLong(x: Int64, count: int): (r: Int64)
    ensures (r - x * Pow2(count % 64)) % TWO_64 == 0
    ensures ShiftFits(x, count % 64) ==> r == x * Pow2(count % 64)
  {
    WrapLong(x * Pow2(count % 64))
  }

  /** True when shifting `x` left by `n` bits stays inside the `Long` range. */
  predicate ShiftFits(x: Int64, n: nat) {
    -TWO_63 <= x * Pow2(n) < TWO_63
  }

  /** `Long.toInt()`: keeps the low 32 bits. */
  function LongToInt(x: Int64): (r: Int32)
    ensures (r - x) % TWO_32 == 0
    ensures -TWO_31 <= x < TWO_31 ==> r == x
  {
    WrapInt(x)
  }

  /** `Int.toLong()`: widening never changes the value. */
  function IntToLong(x: Int32): Int64 {
    x
  }
}

=== FILE: main_activity.dfy ===
/**
 * The UI activity: its transport-action dispatcher, which toggles on the
 * session's published state, the callback that mirrors that state into the
 * controller, and which description it hands to its media-info update
 * when children or metadata arrive.
 */
module MainActivity {
  import opened Wrappers
  import opened AndroidCodes
  import opened Tracks
  import opened WhenDispatch
  import opened SessionCallback
  import ExoPlayer
  import MediaController
  import PlaybackService

  /** The toggle: pause when the session is PLAYING, otherwise play. */
  function Toggle(sessionState: SessionState): seq<Request> {
    if sessionState == StatePlaying then [RequestPause] else [RequestPlay]
  }

  /** The dispatcher's arms in source order; the `when` has no `else` arm. */
  function ActivityArms(sessionState: SessionState): seq<Arm<seq<Request>>> {
    [ Arm([ActionCode(ActionPlay), ActionCode(ActionPause)], Toggle(sessionState)),
      Arm([ActionCode(ActionSkipToNext)], [RequestSkipToNext]),
      Arm([ActionCode(ActionSkipToPrevious)], [RequestSkipToPrevious]) ]
  }

  /**
   * The requests a UI action code issues, given the state of the session's
   * published playback state: PLAY and PAUSE both toggle on that state, the
   * skip codes skip, and every other code issues nothing.
   */
  function OnPlayCurrentMusic(action: int, sessionState: SessionState): (r: seq<Request>)
    ensures |r| <= 1
    ensures action in {ActionCode(ActionPlay), ActionCode(ActionPause)} && sessionState == StatePlaying ==> r == [RequestPause]
    ensures action in {ActionCode(ActionPlay), ActionCode(ActionPause)} && sessionState != StatePlaying ==> r == [RequestPlay]
    ensures r == [RequestSkipToNext] <==> action == ActionCode(ActionSkipToNext)
    ensures r == [RequestSkipToPrevious] <==> action == ActionCode(ActionSkipToPrevious)
    ensures r == [] <==> action !in {ActionCode(ActionPlay), ActionCode(ActionPause),
                                     ActionCode(ActionSkipToNext), ActionCode(ActionSkipToPrevious)}
  {
    Select(ActivityArms(sessionState), action, [])
  }

  /** The activity's controller callback: mirrors the delivered state, NONE when none is delivered. */
  function OnPlaybackStateChanged(c: MediaController.Controller, delivered: Option<PlaybackService.PlaybackState>)
    : (r: MediaController.Controller)
    ensures delivered.None? ==> r.currentMediaState == StateNone
    ensures delivered.Some? ==> r.currentMediaState == delivered.value.state
    ensures r.(currentMediaState := c.currentMediaState) == c
  {
    c.(currentMediaState := if delivered.Some? then delivered.value.state else StateNone)
  }

  /**
   * The description last handed to `updateShowMediaInfo`. In this code that
   * routine only logs, so nothing on screen follows from it.
   */
  datatype MediaInfoUpdate = MediaInfoUpdate(handed: Option<Metadata>)

  /** Children arrive: the first child's description is handed on when there is one; an empty list hands on nothing. */
  function OnChildrenLoaded(d: MediaInfoUpdate, children: seq<PlaybackService.BrowseItem>): (r: MediaInfoUpdate)
    ensures |children| == 0 ==> r == d
    ensures |children| > 0 ==> r.handed == Some(children[0].description)
  {
    if |children| > 0 then MediaInfoUpdate(Some(children[0].description)) else d
  }

  /** Metadata arrives: its description is handed on when present; a null change is ignored. */
  function OnMetadataChanged(d: MediaInfoUpdate, metadata: Option<Metadata>): (r: MediaInfoUpdate)
    ensures metadata.None? ==> r == d
    ensures metadata.Some? ==> r.handed == metadata
  {
    if metadata.Some? then MediaInfoUpdate(metadata) else d
  }

  /**
   * The toggle follows the session, not the mirror: after the session has
   * published PLAYING and the mirror has been reset to NONE by a null
   * delivery, a PLAY action still issues exactly one `pause` on the engine.
   */
  lemma ToggleFollowsSessionNotMirror(svc: PlaybackService.Service, c: MediaController.Controller, position: int, speed: real)
    requires svc.session.metadata.Some?
    ensures var published := PlaybackService.SetPlaybackState(svc, StatePlaying, position, speed);
            var mirror := OnPlaybackStateChanged(c, None);
            && published.Ok?
            && mirror.currentMediaState == StateNone
            && OnPlayCurrentMusic(ActionCode(ActionPlay), published.value.session.playback.state) == [RequestPause]
            && OnRequests(published.value.player, [RequestPause]).log == svc.player.log + [ExoPlayer.Pause]
  {
  }

  /**
   * From the UI, PLAY on a session that is not playing reaches the engine as
   * `play` then `prepare` with playWhenReady set.
   */
  lemma UiPlayStartsEngine(svc: PlaybackService.Service)
    requires svc.session.playback.state != StatePlaying
    ensures var p := OnRequests(svc.player, OnPlayCurrentMusic(ActionCode(ActionPlay), svc.session.playback.state));
            p.log == svc.player.log + [ExoPlayer.Play, ExoPlayer.Prepare] && p.playWhenReady
  {
  }
}

=== FILE: media.dfy ===
/** The process-wide media record the service shares, and its engine setup. */
module Media {
  import opened Wrappers
  import opened AndroidCodes
  import opened Tracks
  import opened ExoPlayer

  /** The nullable fields of the shared record: the last seen state, the current track and the play list. */
  datatype MediaRecord = MediaRecord(
    currentMediaState: Option<SessionState>,
    currentMediaInfo: Option<Track>,
    playList: Option<PlayList>)

  /** The record before anything is assigned: every field is null. */
  function Initial(): (r: MediaRecord)
    ensures r.currentMediaState.None?
    ensures r.currentMediaInfo.None?
    ensures r.playList.None?
  {
    MediaRecord(None, None, None)
  }

  /**
   * The service's engine: a fresh engine with repeat mode ALL and nothing
   * else changed, so playWhenReady keeps its default false.
   */
  function InitExoPlayer(): (r: Player)
    ensures r.repeatMode == RepeatAll
    ensures !r.shuffleModeEnabled && !r.playWhenReady && r.queue == [] && r.log == []
  {
    Build().(repeatMode := RepeatAll)
  }
}

=== FILE: media_controller.dfy ===
/**
 * The default media controller: the play mode and its engine flags, the
 * controller's play list, and the transport calls it makes on its engine.
 */
module MediaController {
  import opened Wrappers
  import opened AndroidCodes
  import opened Tracks
  import opened ExoPlayer
  import Media
  import SessionCallback

  datatype PlayMode = Repeat | Shuffle | Single

  /**
   * The controller's state: its nullable play list, the current song, the
   * mirrored session state, the play mode, and its engine (absent until
   * initialised; touching it before then throws).
   */
  datatype Controller = Controller(
    playList: Option<seq<Track>>,
    currentSongInfo: Option<Track>,
    currentMediaState: SessionState,
    playMode: PlayMode,
    player: Option<Player>)

  /** The initial field values; `playMode` is initialised directly, so its setter does not run. */
  function Initial(): (r: Controller)
    ensures r.playList.None? && r.currentSongInfo.None?
    ensures r.currentMediaState == StateNone
    ensures r.playMode == Repeat
    ensures r.player.None?
  {
    Controller(None, None, StateNone, Repeat, None)
  }

  /** Builds the controller's engine: repeat mode ALL and playWhenReady set. */
  function InitExoPlayer(c: Controller): (r: Controller)
    ensures r.player.Some?
    ensures r.player.value.repeatMode == RepeatAll && r.player.value.playWhenReady
    ensures !r.player.value.shuffleModeEnabled && r.player.value.queue == [] && r.player.value.log == []
    ensures r.(player := c.player) == c
  {
    c.(player := Some(Build().(repeatMode := RepeatAll, playWhenReady := true)))
  }

  /** The two engine set-ups differ only in playWhenReady, which the shared record's leaves false. */
  lemma InitExoPlayersDiffer(c: Controller)
    ensures InitExoPlayer(c).player.value == Media.InitExoPlayer().(playWhenReady := true)
    ensures !Media.InitExoPlayer().playWhenReady
  {
  }

  /**
   * The `playMode` setter: records the mode, then REPEAT clears shuffle and
   * sets repeat ALL, SHUFFLE sets shuffle and keeps the repeat mode, SINGLE
   * clears shuffle and sets repeat ONE.
   */
  function SetPlayMode(c: Controller, m: PlayMode): (r: Controller)
    requires c.player.Some?
    ensures r.playMode == m && r.player.Some?
    ensures m == Repeat ==> !r.player.value.shuffleModeEnabled && r.player.value.repeatMode == RepeatAll
    ensures m == Shuffle ==> r.player.value.shuffleModeEnabled && r.player.value.repeatMode == c.player.value.repeatMode
    ensures m == Single ==> !r.player.value.shuffleModeEnabled && r.player.value.repeatMode == RepeatOne
    ensures r.player.value.playWhenReady == c.player.value.playWhenReady
    ensures r.player.value.queue == c.player.value.queue && r.player.value.log == c.player.value.log
    ensures r.(playMode := c.playMode, player := c.player) == c
  {
    var p := c.player.value;
    var p' :=
      match m
      case Repeat => p.(shuffleModeEnabled := false, repeatMode := RepeatAll)
      case Shuffle => p.(shuffleModeEnabled := true)
      case Single => p.(shuffleModeEnabled := false, repeatMode := RepeatOne);
    c.(playMode := m, player := Some(p'))
  }

  /** The play mode the engine's flags express, if any: shuffle first, then the repeat mode. */
  function ModeOfFlags(p: Player): Option<PlayMode> {
    if p.shuffleModeEnabled then Some(Shuffle)
    else match p.repeatMode
      case RepeatAll => Some(Repeat)
      case RepeatOne => Some(Single)
      case RepeatOff => None
  }

  /** The engine's flags always express the mode just set, and reading `playMode` gives it back. */
  lemma SetPlayModeRoundTrip(c: Controller, m: PlayMode)
    requires c.player.Some?
    ensures ModeOfFlags(SetPlayMode(c, m).player.value) == Some(m)
    ensures SetPlayMode(c, m).playMode == m
  {
  }

  /** Setting a mode twice is setting it once. */
  lemma SetPlayModeIdempotent(c: Controller, m: PlayMode)
    requires c.player.Some?
    ensures SetPlayMode(SetPlayMode(c, m), m) == SetPlayMode(c, m)
  {
  }

  /** `addSongs`: appends in order after the existing songs; a null play list stays null. */
  function AddSongs(c: Controller, items: seq<Track>): (r: Controller)
    ensures c.playList.None? ==> r.playList.None?
    ensures c.playList.Some? ==> r.playList == Some(c.playList.value + items)
    ensures r.(playList := c.playList) == c
  {
    match c.playList
    case None => c
    case Some(pl) => c.(playList := Some(pl + items))
  }

  /** The songs of `xs` not in `items`, in their original order. */
  function RemoveAll(xs: seq<Track>, items: seq<Track>): seq<Track>
    decreases |xs|
  {
    if |xs| == 0 then []
    else if xs[0] in items then RemoveAll(xs[1..], items)
    else [xs[0]] + RemoveAll(xs[1..], items)
  }

  /**
   * Removal deletes every occurrence of every given song and keeps every
   * occurrence of every other song.
   */
  lemma {:induction false} RemoveAllContents(xs: seq<Track>, items: seq<Track>)
    ensures forall x :: x in RemoveAll(xs, items) <==> x in xs && x !in items
    ensures forall x :: multiset(RemoveAll(xs, items))[x] == if x in items then 0 else multiset(xs)[x]
    decreases |xs|
  {
    if |xs| > 0 {
      RemoveAllContents(xs[1..], items);
      assert xs == [xs[0]] + xs[1..];
      assert multiset(xs) == multiset{xs[0]} + multiset(xs[1..]);
    }
  }

  /** Removal works element by element, so it keeps the relative order of what remains. */
  lemma {:induction false} RemoveAllDistributes(xs: seq<Track>, ys: seq<Track>, items: seq<Track>)
    ensures RemoveAll(xs + ys, items) == RemoveAll(xs, items) + RemoveAll(ys, items)
    decreases |xs|
  {
    if |xs| == 0 {
      assert xs + ys == ys;
    } else {
      var zs := xs + ys;
      assert zs[0] == xs[0];
      assert zs[1..] == xs[1..] + ys;
      RemoveAllDistributes(xs[1..], ys, items);
    }
  }

  /** `removeSongs`: deletes every occurrence of every given song; a null play list stays null. */
  function RemoveSongs(c: Controller, items: seq<Track>): (r: Controller)
    ensures c.playList.None? ==> r.playList.None?
    ensures c.playList.Some? ==> r.playList == Some(RemoveAll(c.playList.value, items))
    ensures r.(playList := c.playList) == c
  {
    match c.playList
    case None => c
    case Some(pl) => c.(playList := Some(RemoveAll(pl, items)))
  }

  /** Adding songs and then removing them leaves the songs that were there and are not among them. */
  lemma AddThenRemove(c: Controller, items: seq<Track>)
    requires c.playList.Some?
    ensures RemoveSongs(AddSongs(c, items), items).playList == Some(RemoveAll(c.playList.value, items))
  {
    var pl := c.playList.value;
    assert AddSongs(c, items).playList.value == pl + items;
    RemoveAllDistributes(pl, items, items);
    RemoveAllContents(items, items);
    assert RemoveAll(items, items) == [];
    assert RemoveAll(pl, items) + [] == RemoveAll(pl, items);
    var d := AddSongs(c, items);
    assert RemoveSongs(d, items).playList == Some(RemoveAll(pl + items, items));
  }

  /** A transport call on the controller's engine. */
  function IssueOnEngine(c: Controller, cmd: Command): (r: Controller)
    requires c.player.Some?
    ensures r.player.Some? && r.player.value.log == c.player.value.log + [cmd]
    ensures r.player.value.queue == c.player.value.queue
    ensures r.(player := c.player) == c
  {
    c.(player := Some(ExoPlayer.Issue(c.player.value, cmd)))
  }

  /**
   * The frame every transport call keeps: only the engine changes, and in
   * the engine only the log and the play-when-ready flag may move.
   */
  predicate EngineOnlyLogs(c: Controller, r: Controller)
    requires c.player.Some? && r.player.Some?
  {
    && r.(player := c.player) == c
    && r.player.value.queue == c.player.value.queue
    && r.player.value.repeatMode == c.player.value.repeatMode
    && r.player.value.shuffleModeEnabled == c.player.value.shuffleModeEnabled
  }

  /** `onPlay`: `play` then `prepare`. */
  function OnPlay(c: Controller): (r: Controller)
    requires c.player.Some?
    ensures r.player.Some? && r.player.value.log == c.player.value.log + [Play, Prepare]
    ensures r.player.value.playWhenReady
    ensures EngineOnlyLogs(c, r)
  {
    IssueOnEngine(IssueOnEngine(c, Play), Prepare)
  }

  /** `onPause`: one `pause`. */
  function OnPause(c: Controller): (r: Controller)
    requires c.player.Some?
    ensures r.player.Some? && r.player.value.log == c.player.value.log + [Pause]
    ensures !r.player.value.playWhenReady
    ensures EngineOnlyLogs(c, r)
  {
    IssueOnEngine(c, Pause)
  }

  /** `onPrevious`: one `seekToPreviousMediaItem`. */
  function OnPrevious(c: Controller): (r: Controller)
    requires c.player.Some?
    ensures r.player.Some? && r.player.value.log == c.player.value.log + [SeekToPreviousMediaItem]
    ensures r.player.value.playWhenReady == c.player.value.playWhenReady
    ensures EngineOnlyLogs(c, r)
  {
    IssueOnEngine(c, SeekToPreviousMediaItem)
  }

  /** `onNext`: one `seekToNextMediaItem`. */
  function OnNext(c: Controller): (r: Controller)
    requires c.player.Some?
    ensures r.player.Some? && r.player.value.log == c.player.value.log + [SeekToNextMediaItem]
    ensures r.player.value.playWhenReady == c.player.value.playWhenReady
    ensures EngineOnlyLogs(c, r)
  {
    IssueOnEngine(c, SeekToNextMediaItem)
  }

  /** `onSeekTo(pos)`: one `seekTo(pos)`. */
  function OnSeekTo(c: Controller, pos: int): (r: Controller)
    requires c.player.Some?
    ensures r.player.Some? && r.player.value.log == c.player.value.log + [SeekTo(pos)]
    ensures r.player.value.playWhenReady == c.player.value.playWhenReady
    ensures EngineOnlyLogs(c, r)
  {
    IssueOnEngine(c, SeekTo(pos))
  }

  /**
   * The controller's transport calls and the service's session callback
   * drive an engine identically: each call leaves the controller's engine
   * exactly where the matching session request leaves the same engine.
   */
  lemma TransportMatchesSessionCallback(c: Controller, pos: int)
    requires c.player.Some?
    ensures OnPlay(c).player.value == SessionCallback.OnRequest(c.player.value, SessionCallback.RequestPlay)
    ensures OnPause(c).player.value == SessionCallback.OnRequest(c.player.value, SessionCallback.RequestPause)
    ensures OnNext(c).player.value == SessionCallback.OnRequest(c.player.value, SessionCallback.RequestSkipToNext)
    ensures OnPrevious(c).player.value == SessionCallback.OnRequest(c.player.value, SessionCallback.RequestSkipToPrevious)
    ensures OnSeekTo(c, pos).player.value == SessionCallback.OnRequest(c.player.value, SessionCallback.RequestSeekTo(pos))
  {
  }
}

=== FILE: music_repository.dfy ===
/**
 * The track repository: builds the three bundled tracks' descriptors from
 * whatever metadata the retriever extracts, filling in fixed defaults for
 * what is missing.
 */
module MusicRepository {
  import opened Wrappers
  import opened KotlinInts
  import opened Tracks

  const NO_TITLE: string := "没有标题信息"
  const NO_ARTIST: string := "没有音乐人信息"
  const NO_ALBUM: string := "没有专辑信息"

  /** An embedded cover, as what decoding its bytes yields (null when they do not decode). */
  datatype Cover = Cover(decoded: Option<Bitmap>)

  /** What the metadata retriever extracts from one resource; every field may be missing. */
  datatype Extracted = Extracted(
    title: Option<string>,
    artist: Option<string>,
    album: Option<string>,
    cover: Option<Cover>,
    duration: Option<Int32>)

  /** A bundled raw resource: its resource id and its extracted metadata. */
  datatype Asset = Asset(resource: int, extracted: Extracted)

  /** An application context: the package name and the three bundled resources a1, a2, a3. */
  datatype Context = Context(packageName: string, a1: Asset, a2: Asset, a3: Asset)

  /** The repository: its (nullable) context and the value its observable result holds (null until loaded). */
  datatype Repository = Repository(context: Option<Context>, result: Option<seq<Track>>)

  function NewRepository(context: Option<Context>): (r: Repository)
    ensures r.context == context && r.result.None?
  {
    Repository(context, None)
  }

  /** The URI of a raw resource of the application's package. */
  function ResourceUri(packageName: string, name: string): string {
    "android.resource://" + packageName + "/raw/" + name
  }

  /**
   * One descriptor: URI and resource id as given; each missing text field
   * becomes its fixed placeholder, a missing duration becomes 0, and the
   * image is the decoded cover, absent when there is no embedded cover.
   */
  function MusicInfo(uri: string, asset: Asset): (r: Track)
    ensures r.uri == uri && r.resource == asset.resource
    ensures asset.extracted.title.Some? ==> r.title == asset.extracted.title.value
    ensures asset.extracted.title.None? ==> r.title == NO_TITLE
    ensures asset.extracted.artist.Some? ==> r.artist == asset.extracted.artist.value
    ensures asset.extracted.artist.None? ==> r.artist == NO_ARTIST
    ensures asset.extracted.album.Some? ==> r.album == asset.extracted.album.value
    ensures asset.extracted.album.None? ==> r.album == NO_ALBUM
    ensures asset.extracted.cover.None? ==> r.image.None?
    ensures asset.extracted.cover.Some? ==> r.image == asset.extracted.cover.value.decoded
    ensures asset.extracted.duration.Some? ==> r.duration == asset.extracted.duration.value
    ensures asset.extracted.duration.None? ==> r.duration == 0
  {
    var e := asset.extracted;
    Track(
      uri,
      asset.resource,
      e.title.GetOr(NO_TITLE),
      e.artist.GetOr(NO_ARTIST),
      e.album.GetOr(NO_ALBUM),
      match e.cover case None => None case Some(c) => c.decoded,
      e.duration.GetOr(0))
  }

  /** Reads a descriptor's text fields and duration back, taking each placeholder (and 0) as "missing". */
  function Recovered(t: Track): Extracted {
    Extracted(
      if t.title == NO_TITLE then None else Some(t.title),
      if t.artist == NO_ARTIST then None else Some(t.artist),
      if t.album == NO_ALBUM then None else Some(t.album),
      None,
      if t.duration == 0 then None else Some(t.duration))
  }

  /** Replaces a value that coincides with its placeholder by "missing". */
  function MissingIfPlaceholder<T(==)>(o: Option<T>, placeholder: T): Option<T> {
    if o == Some(placeholder) then None else o
  }

  /**
   * Defaulting loses exactly the distinction between a missing field and a
   * field equal to its placeholder: everything else read back is what was
   * extracted.
   */
  lemma MusicInfoRecovers(uri: string, asset: Asset)
    ensures var back := Recovered(MusicInfo(uri, asset));
            var e := asset.extracted;
            && back.title == MissingIfPlaceholder(e.title, NO_TITLE)
            && back.artist == MissingIfPlaceholder(e.artist, NO_ARTIST)
            && back.album == MissingIfPlaceholder(e.album, NO_ALBUM)
            && back.duration == MissingIfPlaceholder(e.duration, 0)
  {
  }

  /**
   * Loading: with a context, exactly the three descriptors a1, a2, a3 in that
   * order, each under its package resource URI; without one, an empty list.
   * The previous value is replaced, never appended to.
   */
  function GetMusicInfo(repo: Repository): (r: Repository)
    ensures r.context == repo.context
    ensures r.result.Some?
    ensures repo.context.None? ==> r.result.value == []
    ensures repo.context.Some? ==>
              var c := repo.context.value;
              && |r.result.value| == 3
              && r.result.value[0] == MusicInfo(ResourceUri(c.packageName, "a1"), c.a1)
              && r.result.value[1] == MusicInfo(ResourceUri(c.packageName, "a2"), c.a2)
              && r.result.value[2] == MusicInfo(ResourceUri(c.packageName, "a3"), c.a3)
  {
    var tracks :=
      match repo.context
      case None => []
      case Some(c) =>
        [MusicInfo(ResourceUri(c.packageName, "a1"), c.a1),
         MusicInfo(ResourceUri(c.packageName, "a2"), c.a2),
         MusicInfo(ResourceUri(c.packageName, "a3"), c.a3)];
    repo.(result := Some(tracks))
  }

  function ObserverResult(repo: Repository): Option<seq<Track>> {
    repo.result
  }

  /** Loading depends only on the context: a second load gives what the first did, and the earlier value is discarded. */
  lemma GetMusicInfoReplaces(repo: Repository, earlier: Option<seq<Track>>)
    ensures ObserverResult(GetMusicInfo(repo.(result := earlier))) == ObserverResult(GetMusicInfo(repo))
    ensures ObserverResult(GetMusicInfo(GetMusicInfo(repo))) == ObserverResult(GetMusicInfo(repo))
  {
  }
}

=== FILE: playback_service.dfy ===
/**
 * The media playback service: the bridge from engine events to the
 * session's published playback state, the foreground-notification refresh
 * that follows each published state, the browse answers, and the session
 * callback's effect on the engine.
 */
module PlaybackService {
  import opened Wrappers
  import opened KotlinInts
  import opened AndroidCodes
  import opened Tracks
  import opened ExoPlayer
  import Media
  import SessionCallback

  const EMPTY_MEDIA_ROOT_ID: string := "empty_root_id"

  /** The custom favorite action: `1 shl 111` evaluated as a `Long`. */
  const ACTION_FAVORITE: Int64 := ShlLong(1, 111)

  /** The shift count keeps only its low six bits, so the value is 2^47, whose low 32 bits are all zero. */
  lemma FavoriteActionValue()
    ensures ACTION_FAVORITE == Pow2(47) == 0x8000_0000_0000
    ensures LongToInt(ACTION_FAVORITE) == 0
  {
    assert 111 % 64 == 47;
    assert Pow2(10) == 1024 && Pow2(7) == 128;
    Pow2Add(10, 10);
    Pow2Add(20, 20);
    Pow2Add(40, 7);
  }

  /** A published playback state: the state, the engine's position and speed, and the advertised actions. */
  datatype PlaybackState = PlaybackState(state: SessionState, position: int, speed: real, actions: set<Action>)

  /** The media session: its current playback state, its metadata (null until first set) and whether it is active. */
  datatype Session = Session(playback: PlaybackState, metadata: Option<Metadata>, active: bool)

  /** The actions advertised by the playback state installed when the session is created. */
  const SESSION_ACTIONS: set<Action> := {
    ActionSeekTo, ActionPlay, ActionPause, ActionPlayPause, ActionStop,
    ActionPlayFromMediaId, ActionPlayFromSearch, ActionSkipToPrevious, ActionSkipToNext }

  /** A browsable child: the description of the metadata it was made from, and its flags. */
  datatype BrowseItem = BrowseItem(description: Metadata, flags: int)

  const FLAG_BROWSABLE: int := 1

  datatype Icon = IconSkipPrevious | IconPause | IconPlayArrow | IconSkipNext | IconFavoriteBorder

  /** A notification button: its icon, its title and the action code its media-button intent carries. */
  datatype NotificationAction = NotificationAction(icon: Icon, title: string, actionCode: int)

  /** The foreground notification: the session metadata it shows, its buttons, and the buttons of the compact view. */
  datatype Notification = Notification(content: Metadata, actions: seq<NotificationAction>, compactView: seq<nat>)

  /** What makes the service throw: building the notification while the session has no metadata. */
  datatype Fault = NullMetadata

  /**
   * The service's state: the shared record's fields, the session, the engine,
   * the browse items accumulated across calls, and the notifications posted
   * to the foreground, oldest first.
   */
  datatype Service = Service(
    currentMediaState: Option<SessionState>,
    currentMediaInfo: Option<Track>,
    playList: Option<PlayList>,
    session: Session,
    player: Player,
    mediaItems: seq<BrowseItem>,
    foreground: seq<Notification>)

  /**
   * Service creation with the loaded play list: the engine gets repeat mode
   * ALL, the active session advertises the full action set in state NONE,
   * and the controller callback has not yet seen any state.
   */
  function OnCreate(playList: Option<PlayList>): (r: Service)
    ensures r.playList == playList
    ensures r.currentMediaState.None? && r.currentMediaInfo.None?
    ensures r.session.playback.state == StateNone && r.session.playback.actions == SESSION_ACTIONS
    ensures r.session.metadata.None? && r.session.active
    ensures r.player.repeatMode == RepeatAll && !r.player.shuffleModeEnabled
    ensures !r.player.playWhenReady && r.player.queue == [] && r.player.log == []
    ensures r.mediaItems == [] && r.foreground == []
  {
    var m := Media.Initial();
    Service(
      m.currentMediaState,
      m.currentMediaInfo,
      playList,
      Session(PlaybackState(StateNone, 0, 0.0, SESSION_ACTIONS), None, true),
      Media.InitExoPlayer(),
      [],
      [])
  }

  // ---------------------------------------------------------------------------
  // Engine events to session state

  /**
   * The session state for a raw engine state: READY splits on playWhenReady,
   * and every code other than READY, ENDED and BUFFERING gives NONE.
   */
  function MapPlayerState(rawState: int, playWhenReady: bool): (r: SessionState)
    ensures r == StatePlaying <==> rawState == PLAYER_STATE_READY && playWhenReady
    ensures r == StatePaused <==> rawState == PLAYER_STATE_READY && !playWhenReady
    ensures r == StateStopped <==> rawState == PLAYER_STATE_ENDED
    ensures r == StateBuffering <==> rawState == PLAYER_STATE_BUFFERING
    ensures r == StateNone <==> rawState !in {PLAYER_STATE_READY, PLAYER_STATE_ENDED, PLAYER_STATE_BUFFERING}
    ensures r != StateError
  {
    if rawState == PLAYER_STATE_IDLE then StateNone
    else if rawState == PLAYER_STATE_BUFFERING then StateBuffering
    else if rawState == PLAYER_STATE_READY then (if playWhenReady then StatePlaying else StatePaused)
    else if rawState == PLAYER_STATE_ENDED then StateStopped
    else StateNone
  }

  /** The engine events the service listens to, each with the engine's position and speed at that moment. */
  datatype PlayerEvent =
    | PlaybackStateChanged(rawState: int, position: int, speed: real)
    | IsPlayingChanged(isPlaying: bool, position: int, speed: real)
    | PlayerError(position: int, speed: real)

  /** The session state an event publishes, given the engine's playWhenReady flag. */
  function EventState(e: PlayerEvent, playWhenReady: bool): (r: SessionState)
    ensures e.IsPlayingChanged? ==> (r == StatePlaying <==> e.isPlaying) && (r == StatePaused <==> !e.isPlaying)
    ensures r == StateError <==> e.PlayerError?
    ensures e.PlaybackStateChanged? ==> r == MapPlayerState(e.rawState, playWhenReady)
  {
    match e
    case PlaybackStateChanged(raw, _, _) => MapPlayerState(raw, playWhenReady)
    case IsPlayingChanged(b, _, _) => if b then StatePlaying else StatePaused
    case PlayerError(_, _) => StateError
  }

  // ---------------------------------------------------------------------------
  // The foreground notification

  /** True when a state seen by the controller callback rebuilds the foreground notification. */
  function NotificationTrigger(state: Option<SessionState>): (r: bool)
    ensures r <==> state.Some? && state.value !in {StateBuffering, StateStopped, StateError}
  {
    match state
    case Some(StatePlaying) => true
    case Some(StatePaused) => true
    case Some(StateNone) => true
    case _ => false
  }

  /** The second notification button: Pause exactly when the recorded state is PLAYING, else Play (also when null). */
  function PlayPauseButton(current: Option<SessionState>): (r: NotificationAction)
    ensures r.actionCode == ActionCode(ActionPlayPause) <==> current == Some(StatePlaying)
    ensures r.actionCode == ActionCode(ActionPlay) <==> current != Some(StatePlaying)
    ensures r.title == "Pause" <==> current == Some(StatePlaying)
    ensures r.title == "Play" <==> current != Some(StatePlaying)
    ensures r.icon == IconPause <==> current == Some(StatePlaying)
    ensures r.icon == IconPlayArrow <==> current != Some(StatePlaying)
  {
    if current == Some(StatePlaying) then
      NotificationAction(IconPause, "Pause", ActionCode(ActionPlayPause))
    else
      NotificationAction(IconPlayArrow, "Play", ActionCode(ActionPlay))
  }

  const PREVIOUS_BUTTON: NotificationAction :=
    NotificationAction(IconSkipPrevious, "Forward", ActionCode(ActionSkipToPrevious))
  const NEXT_BUTTON: NotificationAction :=
    NotificationAction(IconSkipNext, "Next", ActionCode(ActionSkipToNext))
  const FAVORITE_BUTTON: NotificationAction :=
    NotificationAction(IconFavoriteBorder, "Favorite", ACTION_FAVORITE)

  /**
   * Builds the foreground notification from the session metadata: four
   * buttons (previous, play/pause, next, favorite) with the first three in
   * the compact view. The metadata is dereferenced without a null check, so
   * a session without metadata throws.
   */
  function CreateNotification(svc: Service): (r: Result<Notification, Fault>)
    ensures r.Err? <==> svc.session.metadata.None?
    ensures r.Ok? ==> r.value.content == svc.session.metadata.value
    ensures r.Ok? ==> r.value.actions == [PREVIOUS_BUTTON, PlayPauseButton(svc.currentMediaState), NEXT_BUTTON, FAVORITE_BUTTON]
    ensures r.Ok? ==> r.value.compactView == [0, 1, 2]
  {
    match svc.session.metadata
    case None => Err(NullMetadata)
    case Some(m) =>
      Ok(Notification(m, [PREVIOUS_BUTTON, PlayPauseButton(svc.currentMediaState), NEXT_BUTTON, FAVORITE_BUTTON], [0, 1, 2]))
  }

  /** True when every notification in `ns` shows the metadata `m`. */
  predicate AllShow(ns: seq<Notification>, m: Metadata) {
    forall i :: 0 <= i < |ns| ==> ns[i].content == m
  }

  /**
   * True when the notification carries the four buttons built for the
   * recorded state (previous, the play/pause button for that state, next,
   * favorite) with the first three in the compact view.
   */
  predicate ButtonsFor(n: Notification, recorded: Option<SessionState>) {
    && n.actions == [PREVIOUS_BUTTON, PlayPauseButton(recorded), NEXT_BUTTON, FAVORITE_BUTTON]
    && n.compactView == [0, 1, 2]
  }

  /**
   * The service's own controller callback: records the delivered state
   * (null when nothing is delivered) and, for PLAYING, PAUSED and NONE,
   * posts a freshly built notification to the foreground.
   */
  function OnControllerStateChanged(svc: Service, delivered: Option<PlaybackState>): (r: Result<Service, Fault>)
    ensures var recorded := if delivered.Some? then Some(delivered.value.state) else None;
            && (r.Err? <==> NotificationTrigger(recorded) && svc.session.metadata.None?)
            && (r.Ok? ==> r.value.currentMediaState == recorded)
            && (r.Ok? && !NotificationTrigger(recorded) ==> r.value.foreground == svc.foreground)
            && (r.Ok? && NotificationTrigger(recorded) ==>
                  |r.value.foreground| == |svc.foreground| + 1
                  && r.value.foreground[..|svc.foreground|] == svc.foreground
                  && r.value.foreground[|svc.foreground|] == CreateNotification(svc.(currentMediaState := recorded)).value
                  && ButtonsFor(r.value.foreground[|svc.foreground|], recorded))
            && (r.Ok? && svc.session.metadata.Some? ==>
                  AllShow(r.value.foreground[|svc.foreground|..], svc.session.metadata.value))
    ensures r.Ok? ==> r.value == svc.(currentMediaState := r.value.currentMediaState, foreground := r.value.foreground)
  {
    var s := svc.(currentMediaState := if delivered.Some? then Some(delivered.value.state) else None);
    if NotificationTrigger(s.currentMediaState) then
      match CreateNotification(s)
      case Ok(n) => Ok(s.(foreground := s.foreground + [n]))
      case Err(e) => Err(e)
    else
      Ok(s)
  }

  /**
   * Publishes a state: the session's playback state becomes the given state
   * with the engine's position and speed, advertising only SEEK_TO (replacing
   * the action set installed at creation); the controller callback then runs.
   */
  function SetPlaybackState(svc: Service, state: SessionState, position: int, speed: real): (r: Result<Service, Fault>)
    ensures r.Err? <==> NotificationTrigger(Some(state)) && svc.session.metadata.None?
    ensures r.Ok? ==> r.value.session.playback == PlaybackState(state, position, speed, {ActionSeekTo})
    ensures r.Ok? ==> r.value.currentMediaState == Some(state)
    ensures r.Ok? ==> r.value.session.metadata == svc.session.metadata && r.value.session.active == svc.session.active
    ensures r.Ok? ==> r.value.player == svc.player && r.value.playList == svc.playList && r.value.mediaItems == svc.mediaItems
    ensures r.Ok? ==> r.value.currentMediaInfo == svc.currentMediaInfo
    ensures r.Ok? ==> |r.value.foreground| == |svc.foreground| + (if NotificationTrigger(Some(state)) then 1 else 0)
    ensures r.Ok? ==> r.value.foreground[..|svc.foreground|] == svc.foreground
    ensures r.Ok? && NotificationTrigger(Some(state)) ==>
              ButtonsFor(r.value.foreground[|svc.foreground|], Some(state))
    ensures r.Ok? && svc.session.metadata.Some? ==>
              AllShow(r.value.foreground[|svc.foreground|..], svc.session.metadata.value)
  {
    var p := PlaybackState(state, position, speed, {ActionSeekTo});
    OnControllerStateChanged(svc.(session := svc.session.(playback := p)), Some(p))
  }

  /**
   * Publishing PLAYING on a session with metadata posts a notification whose
   * play/pause button is Pause; publishing PAUSED or NONE posts one whose
   * button is Play.
   */
  lemma PublishedStateNamesButton(svc: Service, state: SessionState, position: int, speed: real)
    requires svc.session.metadata.Some? && state in {StatePlaying, StatePaused, StateNone}
    ensures var r := SetPlaybackState(svc, state, position, speed);
            && r.Ok?
            && |r.value.foreground| == |svc.foreground| + 1
            && r.value.foreground[|svc.foreground|].actions[1].title == (if state == StatePlaying then "Pause" else "Play")
  {
  }

  /** The engine listener: each event publishes the state it maps to. */
  function OnPlayerEvent(svc: Service, e: PlayerEvent): (r: Result<Service, Fault>)
    ensures r.Err? <==> NotificationTrigger(Some(EventState(e, svc.player.playWhenReady))) && svc.session.metadata.None?
    ensures r.Ok? ==> r.value.session.playback.state == EventState(e, svc.player.playWhenReady)
    ensures r.Ok? ==> r.value.session.playback.actions == {ActionSeekTo}
    ensures r.Ok? ==> r.value.player == svc.player
    ensures r.Ok? ==> r.value.session.metadata == svc.session.metadata
    ensures r.Ok? ==> |r.value.foreground| >= |svc.foreground|
    ensures r.Ok? ==> r.value.foreground[..|svc.foreground|] == svc.foreground
    ensures r.Ok? && NotificationTrigger(Some(EventState(e, svc.player.playWhenReady))) ==>
              && |r.value.foreground| == |svc.foreground| + 1
              && ButtonsFor(r.value.foreground[|svc.foreground|], Some(EventState(e, svc.player.playWhenReady)))
    ensures r.Ok? && !NotificationTrigger(Some(EventState(e, svc.player.playWhenReady))) ==>
              r.value.foreground == svc.foreground
    ensures r.Ok? && svc.session.metadata.Some? ==>
              AllShow(r.value.foreground[|svc.foreground|..], svc.session.metadata.value)
  {
    SetPlaybackState(svc, EventState(e, svc.player.playWhenReady), e.position, e.speed)
  }

  /** Events delivered one after another; the first fault stops the service. */
  function OnPlayerEvents(svc: Service, events: seq<PlayerEvent>): (r: Result<Service, Fault>)
    decreases |events|
  {
    if |events| == 0 then Ok(svc)
    else
      match OnPlayerEvent(svc, events[0])
      case Err(f) => Err(f)
      case Ok(s) => OnPlayerEvents(s, events[1..])
  }

  /** How many of the events publish a state that rebuilds the notification. */
  function TriggerCount(events: seq<PlayerEvent>, playWhenReady: bool): nat
    decreases |events|
  {
    if |events| == 0 then 0
    else (if NotificationTrigger(Some(EventState(events[0], playWhenReady))) then 1 else 0)
         + TriggerCount(events[1..], playWhenReady)
  }

  /**
   * Over any run of engine events, the published state is the one the last
   * event maps to, the advertised actions are exactly SEEK_TO, and the engine,
   * the play list and the browse items are untouched.
   */
  lemma {:induction false} LatestEventDecides(svc: Service, events: seq<PlayerEvent>)
    requires |events| > 0
    ensures var r := OnPlayerEvents(svc, events);
            r.Ok? ==>
              && r.value.session.playback.state == EventState(events[|events| - 1], svc.player.playWhenReady)
              && r.value.session.playback.actions == {ActionSeekTo}
              && r.value.currentMediaState == Some(r.value.session.playback.state)
              && r.value.player == svc.player
              && r.value.playList == svc.playList
              && r.value.mediaItems == svc.mediaItems
    decreases |events|
  {
    var first := OnPlayerEvent(svc, events[0]);
    if first.Ok? && |events| > 1 {
      LatestEventDecides(first.value, events[1..]);
      assert events[1..][|events[1..]| - 1] == events[|events| - 1];
    }
  }

  /**
   * Over any run of engine events that completes, exactly one notification is
   * posted per event whose state is PLAYING, PAUSED or NONE; and the run
   * completes whenever the session already has metadata.
   */
  lemma {:induction false} NotificationPerTrigger(svc: Service, events: seq<PlayerEvent>)
    ensures svc.session.metadata.Some? ==> OnPlayerEvents(svc, events).Ok?
    ensures var r := OnPlayerEvents(svc, events);
            r.Ok? ==>
              && |r.value.foreground| == |svc.foreground| + TriggerCount(events, svc.player.playWhenReady)
              && r.value.foreground[..|svc.foreground|] == svc.foreground
    decreases |events|
  {
    if |events| > 0 {
      var first := OnPlayerEvent(svc, events[0]);
      if first.Ok? {
        NotificationPerTrigger(first.value, events[1..]);
        var r := OnPlayerEvents(first.value, events[1..]);
        if r.Ok? {
          assert |first.value.foreground| >= |svc.foreground|;
          assert r.value.foreground[..|svc.foreground|]
              == r.value.foreground[..|first.value.foreground|][..|svc.foreground|];
        }
      }
    }
  }

  /**
   * Over any run of engine events on a session that has metadata, the run
   * completes, the metadata stays, and every notification posted along the
   * way shows that metadata: the notification never shows anything the
   * session does not hold.
   */
  lemma {:induction false} NotificationsShowSessionMetadata(svc: Service, events: seq<PlayerEvent>)
    requires svc.session.metadata.Some?
    ensures var r := OnPlayerEvents(svc, events);
            && r.Ok?
            && r.value.session.metadata == svc.session.metadata
            && |r.value.foreground| >= |svc.foreground|
            && r.value.foreground[..|svc.foreground|] == svc.foreground
            && AllShow(r.value.foreground[|svc.foreground|..], svc.session.metadata.value)
    decreases |events|
  {
    if |events| > 0 {
      var first := OnPlayerEvent(svc, events[0]);
      NotificationsShowSessionMetadata(first.value, events[1..]);
      var r := OnPlayerEvents(first.value, events[1..]);
      var m := svc.session.metadata.value;
      var n0, n1, n2 := |svc.foreground|, |first.value.foreground|, |r.value.foreground|;
      assert r.value.foreground[..n0] == r.value.foreground[..n1][..n0];
      forall i | n0 <= i < n2
        ensures r.value.foreground[i].content == m
      {
        if i < n1 {
          assert r.value.foreground[i] == first.value.foreground[i];
          assert first.value.foreground[n0..][i - n0] == first.value.foreground[i];
        } else {
          assert r.value.foreground[n1..][i - n1] == r.value.foreground[i];
        }
      }
    }
  }

  // ---------------------------------------------------------------------------
  // Browsing

  datatype BrowserRoot = BrowserRoot(rootId: string)

  /** Every client gets the same root, named after the application; no client is refused. */
  function OnGetRoot(appName: string, clientPackageName: string, clientUid: int): (r: BrowserRoot)
    ensures r.rootId == appName
  {
    BrowserRoot(appName)
  }

  /** The browse item one play-list entry contributes. */
  function BrowseItemFor(e: Entry): BrowseItem {
    BrowseItem(BuildMediaMetadata(e), FLAG_BROWSABLE)
  }

  /** The engine item one play-list entry contributes. */
  function QueueItemFor(e: Entry): MediaItem {
    RawResourceItem(e.value.resource)
  }

  function BrowseItemsFor(entries: seq<Entry>): (r: seq<BrowseItem>)
    ensures |r| == |entries|
    ensures forall i :: 0 <= i < |entries| ==> r[i] == BrowseItemFor(entries[i])
  {
    seq(|entries|, i requires 0 <= i < |entries| => BrowseItemFor(entries[i]))
  }

  function QueueItemsFor(entries: seq<Entry>): (r: seq<MediaItem>)
    ensures |r| == |entries|
    ensures forall i :: 0 <= i < |entries| ==> r[i] == QueueItemFor(entries[i])
  {
    seq(|entries|, i requires 0 <= i < |entries| => QueueItemFor(entries[i]))
  }

  lemma ItemsForCons(entries: seq<Entry>)
    requires |entries| > 0
    ensures BrowseItemsFor(entries) == [BrowseItemFor(entries[0])] + BrowseItemsFor(entries[1..])
    ensures QueueItemsFor(entries) == [QueueItemFor(entries[0])] + QueueItemsFor(entries[1..])
  {
  }

  /**
   * The loop over the play list: each entry, in iteration order, becomes
   * the session metadata, appends one browse item and appends one engine
   * item. Nothing else changes; the session keeps the last entry's metadata.
   */
  function AddEntries(svc: Service, entries: seq<Entry>): (r: Service)
    ensures r.mediaItems == svc.mediaItems + BrowseItemsFor(entries)
    ensures r.player.queue == svc.player.queue + QueueItemsFor(entries)
    ensures r.session.metadata == if |entries| == 0 then svc.session.metadata
                                  else Some(BuildMediaMetadata(entries[|entries| - 1]))
    ensures r.player == svc.player.(queue := r.player.queue)
    ensures r.session == svc.session.(metadata := r.session.metadata)
    ensures r.currentMediaState == svc.currentMediaState && r.currentMediaInfo == svc.currentMediaInfo
    ensures r.playList == svc.playList && r.foreground == svc.foreground
    decreases |entries|
  {
    if |entries| == 0 then svc
    else
      var e := entries[0];
      var meta := BuildMediaMetadata(e);
      var s := svc.(session := svc.session.(metadata := Some(meta)),
                    mediaItems := svc.mediaItems + [BrowseItem(meta, FLAG_BROWSABLE)],
                    player := AddMediaItem(svc.player, QueueItemFor(e)));
      ItemsForCons(entries);
      AddEntries(s, entries[1..])
  }

  /** A browse answer: the service afterwards and the list sent back (null for a refusal). */
  datatype Browse = Browse(service: Service, sent: Option<seq<BrowseItem>>)

  /**
   * Answers a browse request. The empty-root sentinel gets null and changes
   * nothing. Any other parent appends the play list's items (when there is a
   * play list) to the never-cleared browse items and the engine queue, and
   * sends all browse items accumulated so far. The session is left holding
   * the last entry's metadata; the engine's flags and log, the recorded
   * state and track, and the notifications are untouched.
   */
  function OnLoadChildren(svc: Service, parentId: string): (r: Browse)
    ensures parentId == EMPTY_MEDIA_ROOT_ID ==> r.sent.None? && r.service == svc
    ensures parentId != EMPTY_MEDIA_ROOT_ID ==> r.sent == Some(r.service.mediaItems)
    ensures parentId != EMPTY_MEDIA_ROOT_ID && svc.playList.None? ==> r.service == svc
    ensures parentId != EMPTY_MEDIA_ROOT_ID && svc.playList.Some? ==>
              && r.service.mediaItems == svc.mediaItems + BrowseItemsFor(svc.playList.value)
              && r.service.player.queue == svc.player.queue + QueueItemsFor(svc.playList.value)
    ensures r.service.session.metadata ==
              if parentId == EMPTY_MEDIA_ROOT_ID || svc.playList.None? || |svc.playList.value| == 0
              then svc.session.metadata
              else Some(BuildMediaMetadata(svc.playList.value[|svc.playList.value| - 1]))
    ensures r.service.player == svc.player.(queue := r.service.player.queue)
    ensures r.service.session == svc.session.(metadata := r.service.session.metadata)
    ensures r.service.currentMediaState == svc.currentMediaState
    ensures r.service.currentMediaInfo == svc.currentMediaInfo
    ensures r.service.playList == svc.playList && r.service.foreground == svc.foreground
  {
    if parentId == EMPTY_MEDIA_ROOT_ID then Browse(svc, None)
    else
      match svc.playList
      case None => Browse(svc, Some(svc.mediaItems))
      case Some(pl) =>
        var s := AddEntries(svc, pl);
        Browse(s, Some(s.mediaItems))
  }

  /** Browsing twice duplicates: the browse items and the engine queue each gain the play list twice over. */
  lemma RepeatedBrowseDuplicates(svc: Service, parentId: string)
    requires parentId != EMPTY_MEDIA_ROOT_ID && svc.playList.Some?
    ensures var twice := OnLoadChildren(OnLoadChildren(svc, parentId).service, parentId).service;
            var items := BrowseItemsFor(svc.playList.value);
            var queued := QueueItemsFor(svc.playList.value);
            && twice.mediaItems == svc.mediaItems + items + items
            && twice.player.queue == svc.player.queue + queued + queued
  {
  }

  // ---------------------------------------------------------------------------
  // Transport requests

  /**
   * The session callback acting on the service's engine: only the engine
   * changes, its queue and modes are kept, and each request appends its
   * own commands to the engine log.
   */
  function OnSessionRequest(svc: Service, t: SessionCallback.Request): (r: Service)
    ensures r.(player := svc.player) == svc
    ensures r.player.queue == svc.player.queue
    ensures r.player.repeatMode == svc.player.repeatMode
    ensures r.player.shuffleModeEnabled == svc.player.shuffleModeEnabled
    ensures t.RequestPlay? ==> r.player.log == svc.player.log + [Play, Prepare] && r.player.playWhenReady
    ensures t.RequestPause? ==> r.player.log == svc.player.log + [Pause] && !r.player.playWhenReady
    ensures t.RequestSkipToNext? ==>
              r.player.log == svc.player.log + [SeekToNextMediaItem] && r.player.playWhenReady == svc.player.playWhenReady
    ensures t.RequestSkipToPrevious? ==>
              r.player.log == svc.player.log + [SeekToPreviousMediaItem] && r.player.playWhenReady == svc.player.playWhenReady
    ensures t.RequestSeekTo? ==>
              r.player.log == svc.player.log + [SeekTo(t.position)] && r.player.playWhenReady == svc.player.playWhenReady
  {
    svc.(player := SessionCallback.OnRequest(svc.player, t))
  }
}

=== FILE: scenarios.dfy ===
/**
 * End-to-end runs through the service: creation, a browse, a transport
 * request and the engine event that confirms it.
 */
module Scenarios {
  import opened Wrappers
  import opened AndroidCodes
  import opened Tracks
  import opened SessionCallback
  import opened PlaybackService
  import ExoPlayer
  import MainActivity

  function TrackA(): Track { Track("android.resource://p/raw/a1", 11, "A", "X", "L", None, 200000) }
  function TrackB(): Track { Track("android.resource://p/raw/a2", 12, "B", "Y", "M", None, 180000) }

  function TwoTracks(): PlayList {
    [Entry("0", TrackA()), Entry("1", TrackB())]
  }

  /**
   * Two tracks: browsing queues both; PLAY followed by a READY event publishes
   * PLAYING and posts one notification whose button is Pause. The notification
   * shows the last browsed entry's metadata, not the first queued track's.
   */
  lemma PlayAfterBrowse(appName: string, position: int, speed: real)
    requires appName != EMPTY_MEDIA_ROOT_ID
    ensures var browsed := OnLoadChildren(OnCreate(Some(TwoTracks())), appName);
            var requested := OnSessionRequest(browsed.service, RequestPlay);
            var r := OnPlayerEvent(requested, PlaybackStateChanged(PLAYER_STATE_READY, position, speed));
            && browsed.sent == Some([BrowseItemFor(TwoTracks()[0]), BrowseItemFor(TwoTracks()[1])])
            && browsed.service.player.queue == [ExoPlayer.RawResourceItem(11), ExoPlayer.RawResourceItem(12)]
            && requested.player.log == [ExoPlayer.Play, ExoPlayer.Prepare]
            && r.Ok?
            && r.value.session.playback.state == StatePlaying
            && |r.value.foreground| == 1
            && r.value.foreground[0].actions[1].title == "Pause"
            && r.value.foreground[0].content == BuildMediaMetadata(TwoTracks()[1])
  {
    var pl := TwoTracks();
    FirstBrowse(appName, pl);
    var browsed := OnLoadChildren(OnCreate(Some(pl)), appName);
    assert BrowseItemsFor(pl) == [BrowseItemFor(pl[0]), BrowseItemFor(pl[1])];
    assert QueueItemsFor(pl) == [QueueItemFor(pl[0]), QueueItemFor(pl[1])];
    var requested := OnSessionRequest(browsed.service, RequestPlay);
    assert EventState(PlaybackStateChanged(PLAYER_STATE_READY, position, speed), true) == StatePlaying;
    PublishedStateNamesButton(requested, StatePlaying, position, speed);
  }

  /**
   * An empty play list browses to an empty list and leaves the session
   * without metadata; a BUFFERING event is then published harmlessly, but an
   * IDLE event publishes NONE, whose notification dereferences the missing
   * metadata and throws.
   */
  lemma EmptyPlayList(appName: string, position: int, speed: real)
    requires appName != EMPTY_MEDIA_ROOT_ID
    ensures var browsed := OnLoadChildren(OnCreate(Some([])), appName);
            && browsed.sent == Some([])
            && browsed.service.player.queue == []
            && OnPlayerEvent(browsed.service, PlaybackStateChanged(PLAYER_STATE_BUFFERING, position, speed)).Ok?
            && OnPlayerEvent(browsed.service, PlaybackStateChanged(PLAYER_STATE_IDLE, position, speed)) == Err(NullMetadata)
  {
    var browsed := OnLoadChildren(OnCreate(Some([])), appName);
    assert BrowseItemsFor([]) == [];
    assert QueueItemsFor([]) == [];
    assert browsed.service.session.metadata.None?;
  }

  /** The first browse of a fresh service sends the play list's items and leaves the session with the last entry's metadata. */
  lemma FirstBrowse(appName: string, pl: PlayList)
    requires appName != EMPTY_MEDIA_ROOT_ID && |pl| > 0
    ensures var browsed := OnLoadChildren(OnCreate(Some(pl)), appName);
            && browsed.sent == Some(BrowseItemsFor(pl))
            && browsed.service.session.metadata == Some(BuildMediaMetadata(pl[|pl| - 1]))
            && browsed.service.foreground == []
  {
    var browsed := OnLoadChildren(OnCreate(Some(pl)), appName);
    assert browsed.service.mediaItems == [] + BrowseItemsFor(pl) == BrowseItemsFor(pl);
  }

  /**
   * The first browse of a fresh service whose play list has two or more
   * entries: the activity's children callback hands the first entry's
   * description to its media-info update, while the session keeps the last entry's metadata, and so
   * does every notification that any later run of engine events posts.
   * The two differ, because play-list keys are unique.
   */
  lemma FirstBrowseSplitsActivityFromSession(
    appName: string, pl: PlayList, d: MainActivity.MediaInfoUpdate, events: seq<PlayerEvent>)
    requires appName != EMPTY_MEDIA_ROOT_ID && |pl| >= 2
    ensures var browsed := OnLoadChildren(OnCreate(Some(pl)), appName);
            var first := Some(BuildMediaMetadata(pl[0]));
            var last := Some(BuildMediaMetadata(pl[|pl| - 1]));
            var run := OnPlayerEvents(browsed.service, events);
            && browsed.sent.Some?
            && MainActivity.OnChildrenLoaded(d, browsed.sent.value).handed == first
            && browsed.service.session.metadata == last
            && first != last
            && run.Ok?
            && AllShow(run.value.foreground, last.value)
  {
    FirstBrowse(appName, pl);
    PlayListMetadataDistinct(pl, 0, |pl| - 1);
    var browsed := OnLoadChildren(OnCreate(Some(pl)), appName);
    NotificationsShowSessionMetadata(browsed.service, events);
    var run := OnPlayerEvents(browsed.service, events);
    assert run.value.foreground[0..] == run.value.foreground;
  }
}

=== FILE: session_callback.dfy ===
/**
 * The transport requests a session controller sends, and the service's
 * session callback that turns each request into engine commands.
 */
module SessionCallback {
  import opened ExoPlayer

  /** The transport-controls calls the core makes (`play()`, `pause()`, …). */
  datatype Request =
    | RequestPlay
    | RequestPause
    | RequestSkipToNext
    | RequestSkipToPrevious
    | RequestSeekTo(position: int)

  /** The engine commands each request stands for, in the order they are issued. */
  function Commands(t: Request): seq<Command> {
    match t
    case RequestPlay => [Play, Prepare]
    case RequestPause => [Pause]
    case RequestSkipToNext => [SeekToNextMediaItem]
    case RequestSkipToPrevious => [SeekToPreviousMediaItem]
    case RequestSeekTo(pos) => [SeekTo(pos)]
  }

  /** The commands a run of requests stands for: each request's commands, in request order. */
  function CommandsOf(ts: seq<Request>): seq<Command>
    decreases |ts|
  {
    if |ts| == 0 then [] else Commands(ts[0]) + CommandsOf(ts[1..])
  }

  /**
   * The session callback's handling of one request. Play issues `play` then
   * `prepare` and sets playWhenReady; pause, skip and seek issue the one
   * matching engine command. The queue and the repeat and shuffle flags are
   * never touched.
   */
  function OnRequest(p: Player, t: Request): (r: Player)
    ensures r.queue == p.queue && r.repeatMode == p.repeatMode && r.shuffleModeEnabled == p.shuffleModeEnabled
    ensures t.RequestPlay? ==> r.log == p.log + [Play, Prepare] && r.playWhenReady
    ensures t.RequestPause? ==> r.log == p.log + [Pause] && !r.playWhenReady
    ensures t.RequestSkipToNext? ==> r.log == p.log + [SeekToNextMediaItem] && r.playWhenReady == p.playWhenReady
    ensures t.RequestSkipToPrevious? ==> r.log == p.log + [SeekToPreviousMediaItem] && r.playWhenReady == p.playWhenReady
    ensures t.RequestSeekTo? ==> r.log == p.log + [SeekTo(t.position)] && r.playWhenReady == p.playWhenReady
    ensures r.log == p.log + Commands(t)
  {
    match t
    case RequestPlay => Issue(Issue(p, Play), Prepare).(playWhenReady := true)
    case RequestPause => Issue(p, Pause)
    case RequestSkipToNext => Issue(p, SeekToNextMediaItem)
    case RequestSkipToPrevious => Issue(p, SeekToPreviousMediaItem)
    case RequestSeekTo(pos) => Issue(p, SeekTo(pos))
  }

  /** The requests handled one after another: the engine log gains each request's commands in order. */
  function OnRequests(p: Player, ts: seq<Request>): (r: Player)
    ensures r.queue == p.queue && r.repeatMode == p.repeatMode && r.shuffleModeEnabled == p.shuffleModeEnabled
    ensures r.log == p.log + CommandsOf(ts)
    ensures ts == [] ==> r == p
    ensures |ts| == 1 ==> r == OnRequest(p, ts[0])
    decreases |ts|
  {
    if |ts| == 0 then p else OnRequests(OnRequest(p, ts[0]), ts[1..])
  }
}

=== FILE: tracks.dfy ===
/**
 * Track descriptors, the keyed play list the service iterates, and the
 * session metadata built from one play-list entry.
 */
module Tracks {
  import opened Wrappers
  import opened KotlinInts

  /** A decoded cover image; only its identity matters to the core. */
  datatype Bitmap = Bitmap(handle: nat)

  /**
   * A track descriptor (MediaItemData as the repository constructs it):
   * the resource's URI and raw-resource id, the three text fields, the
   * optional cover and the duration in milliseconds as a Kotlin `Int`.
   */
  datatype Track = Track(
    uri: string,
    resource: int,
    title: string,
    artist: string,
    album: string,
    image: Option<Bitmap>,
    duration: Int32)

  /** One entry of the service's play list: `Map.Entry<String, MediaItemData>`. */
  datatype Entry = Entry(key: string, value: Track)

  predicate UniqueKeys(entries: seq<Entry>) {
    forall i, j :: 0 <= i < j < |entries| ==> entries[i].key != entries[j].key
  }

  /** The service's play list: a map, held in its iteration order. */
  type PlayList = entries: seq<Entry> | UniqueKeys(entries) witness []

  /** The metadata keys the core writes (MediaMetadataCompat.METADATA_KEY_*). */
  datatype MetaKey = KeyMediaId | KeyAlbum | KeyArtist | KeyDuration | KeyTitle

  /** A metadata value: `putString` or `putLong`. */
  datatype MetaValue = Text(text: string) | LongValue(long: Int64)

  type Metadata = map<MetaKey, MetaValue>

  /**
   * The session metadata for one play-list entry: the entry's key becomes
   * the media id; album, artist and title are copied; the `Int` duration is
   * widened to a `Long` of the same value. Nothing else is written.
   */
  function BuildMediaMetadata(entry: Entry): (r: Metadata)
    ensures r.Keys == {KeyMediaId, KeyAlbum, KeyArtist, KeyDuration, KeyTitle}
    ensures r[KeyMediaId] == Text(entry.key)
    ensures r[KeyAlbum] == Text(entry.value.album)
    ensures r[KeyArtist] == Text(entry.value.artist)
    ensures r[KeyTitle] == Text(entry.value.title)
    ensures r[KeyDuration].LongValue? && r[KeyDuration].long == entry.value.duration as int
  {
    map[
      KeyMediaId := Text(entry.key),
      KeyAlbum := Text(entry.value.album),
      KeyArtist := Text(entry.value.artist),
      KeyDuration := LongValue(IntToLong(entry.value.duration)),
      KeyTitle := Text(entry.value.title)]
  }

  /** Reads the fields that metadata built from an entry carries back out of it. */
  function MetadataFields(m: Metadata): Option<(string, string, string, string, Int64)> {
    if && KeyMediaId in m && m[KeyMediaId].Text?
       && KeyAlbum in m && m[KeyAlbum].Text?
       && KeyArtist in m && m[KeyArtist].Text?
       && KeyTitle in m && m[KeyTitle].Text?
       && KeyDuration in m && m[KeyDuration].LongValue?
    then Some((m[KeyMediaId].text, m[KeyAlbum].text, m[KeyArtist].text, m[KeyTitle].text, m[KeyDuration].long))
    else None
  }

  /** Building metadata loses none of the fields it copies. */
  lemma BuildMediaMetadataRoundTrip(entry: Entry)
    ensures MetadataFields(BuildMediaMetadata(entry))
         == Some((entry.key, entry.value.album, entry.value.artist, entry.value.title, entry.value.duration as Int64))
  {
  }

  /** Two entries get the same metadata exactly when they agree on every copied field. */
  lemma BuildMediaMetadataInjective(a: Entry, b: Entry)
    ensures BuildMediaMetadata(a) == BuildMediaMetadata(b)
        <==> && a.key == b.key && a.value.album == b.value.album && a.value.artist == b.value.artist
             && a.value.title == b.value.title && a.value.duration == b.value.duration
  {
    if BuildMediaMetadata(a) == BuildMediaMetadata(b) {
      BuildMediaMetadataRoundTrip(a);
      BuildMediaMetadataRoundTrip(b);
    }
  }

  /** Distinct positions of a play list carry distinct metadata, because their keys differ. */
  lemma PlayListMetadataDistinct(pl: PlayList, i: nat, j: nat)
    requires i < j < |pl|
    ensures BuildMediaMetadata(pl[i]) != BuildMediaMetadata(pl[j])
  {
    assert pl[i].key != pl[j].key;
    BuildMediaMetadataInjective(pl[i], pl[j]);
  }
}

=== FILE: when_dispatch.dfy ===
/**
 * Kotlin's `when (subject) { v1, v2 -> … ; … }` on an integer subject: the
 * arms are tried in order and the first arm listing the subject is taken.
 */
module WhenDispatch {
  import opened Wrappers

  /** One arm of a `when`: the values it lists and what it yields. */
  datatype Arm<R> = Arm(values: seq<int>, result: R)

  /** The index of the first arm that lists `subject`, if any. */
  function FirstMatch<R>(arms: seq<Arm<R>>, subject: int): (r: Option<nat>)
    ensures r.Some? ==> r.value < |arms| && subject in arms[r.value].values
    ensures r.Some? ==> forall j :: 0 <= j < r.value ==> subject !in arms[j].values
    ensures r.None? <==> forall j :: 0 <= j < |arms| ==> subject !in arms[j].values
  {
    if |arms| == 0 then None
    else if subject in arms[0].values then Some(0)
    else
      match FirstMatch(arms[1..], subject)
      case None => None
      case Some(i) => Some(i + 1)
  }

  /** True when arm `i` lists `subject` and no earlier arm does. */
  predicate IsFirstArm<R>(arms: seq<Arm<R>>, subject: int, i: nat)
    requires i < |arms|
  {
    && subject in arms[i].values
    && forall j :: 0 <= j < i ==> subject !in arms[j].values
  }

  /** What the `when` yields for `subject`; `otherwise` is its `else` arm. */
  function Select<R>(arms: seq<Arm<R>>, subject: int, otherwise: R): (r: R)
    ensures (forall j :: 0 <= j < |arms| ==> subject !in arms[j].values) ==> r == otherwise
    ensures forall i :: 0 <= i < |arms| && IsFirstArm(arms, subject, i) ==> r == arms[i].result
  {
    match FirstMatch(arms, subject)
    case None => otherwise
    case Some(i) => arms[i].result
  }
}

=== FILE: wrappers.dfy ===
/** Kotlin's nullable values (`T?`) and the two outcomes of an operation that can throw. */
module Wrappers {

  /** A nullable value: `None` stands for Kotlin's `null`. */
  datatype Option<+T> = None | Some(value: T) {

    /** Kotlin's elvis operator `this ?: default`. */
    function GetOr(default: T): (r: T)
      ensures Some? ==> r == value
      ensures None? ==> r == default
    {
      match this
      case Some(v) => v
      case None => default
    }
  }

  /** The result of an operation that either returns normally or throws. */
  datatype Result<+T, +E> = Ok(value: T) | Err(error: E)
}
